=== FILE: README.md ===
# YouTube transcript extractor — a Dafny model of its core

The application is a single Streamlit script, `app.py`. A user pastes a YouTube URL. The script:

- resolves the video id from the URL;
- lists the subtitle languages the transcript service offers and shows them sorted in a selector;
- on "Extract Transcript", fetches the captions for the chosen language and joins their texts with newlines;
- offers "Organize by Gemini" and "Chat with Gemini" once a transcript is present;
- shows the summary, else the transcript, else a hint.

The chat dialog builds one prompt from the transcript and the chat history. It appends the user's question before the model call, and the stripped answer after a successful call.

This project models that logic as pure functions over strings and sequences:

- `UrlResolver` (`url_resolver.dfy`): `get_youtube_id`.
  - Each regular expression becomes a `Pattern`: literal markers followed by a greedy, non-empty run of characters outside a stop set.
  - Python's `re.search` is stated declaratively: the leftmost start, the first matching alternative, the maximal run.
  - It is computed by explicit index scanning.
  - `ResolverExamples` (`url_examples.dfy`) works the URL shapes the application accepts through that contract.
- `Lexicographic` (`lexicographic.dfy`): Python's ordering on `str` (by code point, a proper prefix first) and `sorted`, as insertion sort.
- `Languages` (`languages.dfy`): the dict the listing is folded into. A later duplicate code replaces the entry, and the key keeps its place. The sorted keys are the language options.
- `Transcript` (`transcript.dfy`): the newline join of the caption texts, and `str.split("\n")` as its inverse.
- `Chat` (`chat.dfy`): `str.strip`, the chat prompt, and one question's effect on the history.
- `Workflow` (`workflow.dfy`): one rerun of the script as a function from an explicit `Session` record and a `Request` to an `Outcome`.
  - A `Request` carries the user's input and the services' answers.
  - An `Outcome` carries the new session, the notices, the languages offered, the service calls made, the actions offered and the display.
- `Seqs` (`seqs.dfy`) and `Wrappers` (`wrappers.dfy`) hold small generic facts about concatenation, and `Option`.

Where a natural reading of the application's intent and the code differ, the model follows the code:

- The `v=` alternative also stops at `?`, because both alternatives share one character class.
- An empty id after a marker does not match there, so the search moves on to a later position.
- A fetch for the chosen language that reports no transcript empties `extracted_text`, as every other failure does. The same languages stay on offer in that run.
- `organized_text` is never reset by a new URL or a new extraction. A summary from an earlier video therefore stays on display, in preference to a newer transcript and even after a later failure (`Workflow.SummarySurvivesFailedExtraction`).
- `organized_text` becomes Python's `None` when summarisation fails. The model records this as `Option<string>`, and `None` and `""` are both falsy for the display.

## Model

| member | source | states |
|---|---|---|
| UrlResolver.GetYoutubeId | app.py:26-36 | Total on every string. The result is `None` exactly when neither pattern matches anywhere. When the standard pattern matches, the result is the capture at its leftmost match. Only when it matches nowhere is the shorts pattern's leftmost capture returned. |
| UrlResolver.Find | app.py:29-35 | A search gives `None` exactly when the pattern matches nowhere. Otherwise it gives the group captured at the leftmost matching position. |
| UrlResolver.Search | app.py:29 | The position found matches, and no position between the start and it matches. `None` means no position at or after the start matches. |
| UrlResolver.FirstAlt | app.py:29 | The alternative chosen at a position matches there, and no earlier alternative does. `None` means none matches. |
| UrlResolver.IdStart | app.py:29 | The captured id starts right after the marker of the first alternative that matches at the position, the one the alternation commits to. The id's first character is outside the stop set. |
| UrlResolver.RunEnd | app.py:29 | The run from the id start has no stop characters, and it ends at the end of the string or on a stop character. So it is the maximal run. |
| UrlResolver.CaptureAt | app.py:29 | The group is non-empty and free of stop characters. It is the substring at the id start, and it is followed by the end of the string or a stop character. |
| UrlResolver.LeftmostExists | app.py:29 | A pattern that matches somewhere has a leftmost match at or before any match. |
| UrlResolver.ResolvedIdShape | app.py:29-35 | Any returned id is non-empty and contains no `?`. When the standard pattern matched, it contains no `&` either. |
| UrlResolver.StandardIdResolves | app.py:29-31 | Converse of the standard case. Take a marker at `i` with no match before it, followed by a non-empty run without `&`/`?` that ends the URL or stops at `&`/`?`. That run is exactly what is returned. |
| UrlResolver.ShortsIdResolves | app.py:33-35 | Converse of the shorts case. When the standard pattern matches nowhere, a leftmost `shorts/` followed by a `?`-free run up to the end or a `?` resolves to that run. |
| UrlResolver.OneStandardMarker | app.py:29 | `v=` and `youtu.be/` never both start at one index, so the alternative taken at a position is unique. |
| UrlResolver.RunOfId | app.py:29 | Any run of non-stop characters that ends the string or stops at a stop character is the maximal run. |
| ResolverExamples.WatchPageExample | app.py:29-31 | `https://www.youtube.com/watch?v=ABC123&t=10` resolves to `ABC123`. |
| ResolverExamples.ShortLinkExample | app.py:29-31 | `https://youtu.be/ABC123?si=xyz` resolves to `ABC123`. |
| ResolverExamples.ShortsExample | app.py:33-35 | `https://www.youtube.com/shorts/dQw4w9WgXcQ?feature=share` resolves to `dQw4w9WgXcQ`. |
| ResolverExamples.EmptyIdSkippedExample | app.py:29 | In `v=&v=abc`, the empty id at the first `v=` is skipped, and the result is `abc`. |
| ResolverExamples.ShortsIdKeepsAmpersandExample | app.py:33-35 | `shorts/a&b?x` resolves to `a&b`: a shorts id may contain `&`. |
| ResolverExamples.NoIdExample | app.py:36 | `https://example.com/` resolves to `None`. |
| Lexicographic.Less | app.py:110 | A proper prefix sorts before the longer string, and no string sorts before an equal one. |
| Lexicographic.LessIsFirstDifference | app.py:110 | The order is the lexicographic one, in both directions: `a` sorts first exactly when it is a proper prefix of `b`, or when it has the smaller code point at the first index where the two differ. |
| Lexicographic.LessIrreflexive | app.py:110 | No string sorts before itself. |
| Lexicographic.LessTransitive | app.py:110 | The string order is transitive. |
| Lexicographic.LessTotal | app.py:110 | Any two distinct strings are ordered one way or the other. |
| Lexicographic.LessAsymmetric | app.py:110 | Two strings are never each below the other. |
| Lexicographic.Insert | app.py:110 | Inserting into a sorted list keeps it sorted, and it adds exactly that one element. |
| Lexicographic.Sort | app.py:110 | The result is ascending and a permutation of the input. |
| Lexicographic.SortedDistinctIsStrict | app.py:110 | A sorted list without duplicates is strictly ascending. |
| Lexicographic.SortedUnique | app.py:110 | Two strictly ascending lists with the same elements are equal. So the sorted order of a set of codes is unique. |
| Languages.Put | app.py:104 | One dict assignment stores the option under its code and leaves every other entry as it was. A new code is appended to the key order, and an existing code keeps its place. |
| Languages.BuildTable | app.py:104 | The dict has at most one key per listing entry. The listing's last entry is stored under its code. |
| Languages.TableShape | app.py:104 | The dict's key order is duplicate-free and lists exactly the stored codes. |
| Languages.TableCodes | app.py:104 | The stored codes are exactly the listing's codes. |
| Languages.TableKeys | app.py:104 | The dict's keys are distinct, and they are exactly its entries. Its entries are exactly the listing's codes. It is empty exactly when the listing is. |
| Languages.TableEntriesFromListing | app.py:104 | Every value of the dict is an entry of the listing, stored under its own code. |
| Languages.TableLastWins | app.py:104 | Every code of the listing is a key. On duplicate codes the entry stored is the last one in the listing. |
| Languages.PutKeepsTableShape | app.py:104 | One assignment to the dict keeps its keys distinct and in step with its entries. |
| Languages.LanguageOptions | app.py:104-110 | The offered codes are strictly ascending, so duplicate-free. They are exactly the listing's codes. They are empty exactly when the listing is. |
| Languages.OptionsIgnoreListingOrder | app.py:104-110 | Two listings with the same codes, in any order and with any repeats, offer the same list. |
| Transcript.Join | app.py:119 | No lines join to `""`, and the joined text starts with the first line. |
| Transcript.TranscriptText | app.py:119 | No captions give `""`, and one caption gives its text. When no caption text contains a newline, splitting the result at newlines gives back the caption texts, in order. |
| Transcript.TranscriptTextAppend | app.py:119 | The text of two non-empty runs of captions is their texts joined by one newline. |
| Transcript.JoinAppend | app.py:119 | For non-empty `a` and `b`, the join of `a + b` is the join of `a`, a newline, and the join of `b`. |
| Transcript.JoinLength | app.py:119 | The joined text's length is the lines' total length plus one per gap between neighbouring lines. |
| Transcript.SplitJoin | app.py:119 | Splitting the join of a non-empty list of lines gives the lines back, when no line contains a newline. Empty lines are allowed. |
| Transcript.JoinSplit | app.py:119 | Joining the pieces of any string at its newlines gives the string back. |
| Transcript.FirstNewline | app.py:119 | The index found holds a newline, and no newline comes before it. |
| Transcript.Split | app.py:119 | Splitting never gives an empty list, and no piece holds a newline. |
| Chat.IsSpace | app.py:79 | Among ASCII characters, exactly the space, tab, line feed, vertical tab, form feed, carriage return and the separators 0x1c to 0x1f are whitespace. No character after U+3000 is. |
| Chat.Strip | app.py:79 | The result neither starts nor ends with whitespace. It is a substring of the input, and everything around it is whitespace. |
| Chat.StripIdempotent | app.py:79 | Stripping a stripped answer changes nothing. |
| Chat.SkipSpace | app.py:79 | Everything skipped is whitespace, and the first character kept is not. |
| Chat.SkipSpaceBack | app.py:79 | Everything dropped from the end is whitespace, and the last character kept is not. |
| Chat.RoleLabel | app.py:74 | The label is `User` exactly for the role `user`, and `Assistant` for every other role. |
| Chat.EntryLine | app.py:75 | An entry's line is its role label, then `: `, then the content, then a newline. |
| Chat.HistoryBlock | app.py:73-75 | The history lines are empty exactly when the history is. Otherwise they end with a newline. |
| Chat.Header | app.py:72 | The prompt's header is the line `Transcript:`, the transcript, and a blank line. |
| Chat.Conversation | app.py:72-76 | The prompt starts with the transcript header and ends with `Assistant:`. |
| Chat.LineInPrompt | app.py:73-75 | Entry `i` appears as its own role-labelled line. The line sits right after the header and the lines of the entries before it, so the lines are in history order. |
| Chat.BuildConversation | app.py:72-76 | The loop that appends one line per history entry builds exactly the prompt `Conversation` describes. |
| Chat.NextLine | app.py:73-75 | Appending one entry's line extends the prompt over the first `i` entries to the prompt over the first `i + 1`. |
| Chat.HistoryBlockAppend | app.py:73-75 | The history lines of two runs of messages are the lines of the first followed by the lines of the second. |
| Chat.HistoryBlockAt | app.py:73-75 | Entry `i` contributes exactly one line, between the lines before it and the lines after it. |
| Chat.QuestionLine | app.py:74-75 | A user message becomes the line `User: <content>`. |
| Chat.Ask | app.py:63-86 | An empty input changes nothing and sends nothing. Otherwise the history is extended, never rewritten: the user message is appended before the call, and the prompt covers exactly the history up to it. A successful call appends the stripped answer as the assistant's message; a failed one leaves the question unanswered. |
| Chat.PromptEndsWithEntry | app.py:72-76 | The prompt over a history whose last entry is `m` ends with `m`'s line and `Assistant:`. |
| Chat.PromptEndsWithQuestion | app.py:66-76 | The prompt sent for a question ends with `User: <question>`, a newline and `Assistant:`. |
| Workflow.Selected | app.py:108-111 | The selected code is one of the options, the picked one when the pick is in range. |
| Workflow.DisplayOf | app.py:149-154 | The summary is shown exactly when it is non-empty. Otherwise the transcript is shown exactly when it is non-empty. Otherwise the hint is shown. |
| Workflow.Extract | app.py:99-140 | Every failure shows one notice and empties the transcript. No notice is shown exactly when the id resolves, the listing succeeds with some entry, and any fetch made succeeds. An invalid URL is reported exactly when no id resolves. The listing is made for the resolved id, and a failed listing shows its own notice. A fetch is made exactly on a click, when the listing is non-empty and the selected code is non-empty. It is made for the resolved id and the selected code. A failed fetch empties the transcript and shows the no-transcript-for-language error when the service found no transcript, and the extraction error for any other failure. A successful fetch's captions become the transcript. Without a fetch, the transcript changes only through a failure. |
| Workflow.ListingNotice | app.py:132-137 | A missing transcript or disabled subtitles give the subtitle warning, flagged by which one it was. Any other listing failure gives the unexpected-error notice. |
| Workflow.AfterListing | app.py:104-130 | The options are the sorted codes. An empty listing gives the no-subtitles warning and no fetch. A fetch is made exactly on a click, when the listing is non-empty and the selected code is non-empty. It is made for the video and the selected code. A failed fetch empties the transcript and shows the no-transcript-for-language error when the service found no transcript, and the extraction error for any other failure. A successful fetch sets the transcript. No notice is shown exactly when the listing is non-empty and any fetch made succeeds. |
| Workflow.Run | app.py:94-154 | An empty URL changes nothing. For a non-empty URL the run performs the extraction: the new transcript, the notice, the languages offered and the service calls are exactly those `Extract` gives. The missing-key warning appears exactly when a URL is given without a key. Any extraction notice leaves the transcript empty. The actions are offered exactly when the transcript is non-empty. The chat dialog opens exactly when the actions are offered and the chat button is clicked. An organize click while a transcript is present stores the summary, or `None` on failure. The summary changes in no other way. Its failure is reported exactly then. The chat history is untouched. The display follows the summary/transcript/hint priority, and shows the stored summary or transcript itself. |
| Workflow.InitialShowsHint | app.py:15-18 | Before any URL is entered, the initial session stays as it is, no action is offered and the hint is shown. |
| Workflow.MissingKeyOnlyWarns | app.py:96-97 | A missing API key adds its warning and changes nothing else about the run. |
| Workflow.ExtractIgnoresKey | app.py:99-140 | The extraction does not depend on the API key. |
| Workflow.FailureEmptiesTranscript | app.py:122-142 | Every failure leaves no transcript and offers neither action: an unresolvable URL, a failed or empty listing, a failed fetch. |
| Workflow.EmptyListingFetchesNothing | app.py:128-130 | An empty listing offers no language, fetches nothing and empties the transcript. When the URL resolved, it warns that there are no subtitles. |
| Workflow.OfferedLanguages | app.py:104-111 | A successful listing offers its codes, each once, in strictly ascending order. |
| Workflow.FetchMissKeepsLanguages | app.py:117-124 | A fetch that finds no transcript for the chosen language reports it and empties the transcript. It was made for the resolved id and the selected code, and the same languages stay on offer. |
| Workflow.FetchedTranscriptShown | app.py:117-120 | A successful fetch, made for the resolved id and the selected code, makes the joined caption texts the transcript and leaves the summary alone. The transcript is shown unless a summary is on display. |
| Workflow.SummarySurvivesFailedExtraction | app.py:138-154 | A summary from an earlier run stays on display after a later URL fails to resolve, even though the transcript is emptied. |

## Left out

- Streamlit rendering, widgets, spinners, the dialog decorator and the reversed chat display (app.py lines 9, 21-23, 88-91). They are presentation with no stated behaviour. The user's input and clicks arrive as fields of `Request`.
- The transcript service calls `list_transcripts` and `get_transcript` are network calls into a library that is not part of this model. Their results are the outcome values `Listing` and `Fetch`. A listing entry keeps only its code, language name and flags.
- The Gemini calls are external and nondeterministic: summarisation (lines 38-54) and the chat call (lines 69-78). The summary is `Request.summary`, and `None` stands for a failure. The chat reply is a `Reply` parameter. The summarisation prompt text is not modelled.
- `load_dotenv` and `os.getenv` are environment I/O. The key is only present or absent (`Request.hasApiKey`).
- The texts of exception messages interpolated into warnings and errors are produced by foreign code. A notice records only which kind of message is shown.
- Caption timing (`start`, `duration`) is kept as `real` and never used, because the join drops it. Floating point is not modelled.
- `Chat.Ask` takes one question at a time. The dialog's lazy creation of `chat_history` (lines 59-60) is the empty history of `Workflow.Initial`.
- `Chat.Ask` records the prompt built for a question even when the model call then fails. A failure while configuring the client (lines 69-70), before the prompt is built, is not told apart from a failed call.
- `Transcript.TranscriptText` states the split round trip only for caption texts without newlines. A caption containing a newline cannot be told apart from two captions after joining, and the source does nothing about it.

=== FILE: chat.dfy ===
/**
 The question-answering dialog (app.py lines 57-91): the prompt built for each
 question, and how one question changes the chat history.  The language model
 itself is outside the model; its reply is a parameter.
 */
module Chat {
  import opened Wrappers
  import Seqs

  /** One chat-history entry, `{"role": ..., "content": ...}`. */
  datatype Message = Message(role: string, content: string)

  /** What the language model does with one prompt. */
  datatype Reply = Answered(text: string) | ProviderFailed

  /** The history after one question, and the prompt built for it, if any. */
  datatype Turn = Turn(history: seq<Message>, prompt: Option<string>)

  /** Python's `str.isspace` for one character: the ASCII whitespace is the
      space, tab to carriage return and the four separators 0x1c to 0x1f, and
      no character after U+3000 counts. */
  function IsSpace(c: char): (r: bool)
    ensures c < '\U{80}' ==>
      (r <==> c in {' ', '\t', '\n', '\U{b}', '\U{c}', '\r', '\U{1c}', '\U{1d}', '\U{1e}', '\U{1f}'})
    ensures r ==> c <= '\U{3000}'
  {
    || c == ' '
    || '\t' <= c <= '\r'
    || '\U{1c}' <= c <= '\U{1f}'
    || c == '\U{85}' || c == '\U{a0}' || c == '\U{1680}'
    || '\U{2000}' <= c <= '\U{200a}'
    || c == '\U{2028}' || c == '\U{2029}' || c == '\U{202f}' || c == '\U{205f}' || c == '\U{3000}'
  }

  /** The first index at or after `i` that does not hold whitespace. */
  function SkipSpace(s: string, i: nat): (n: nat)
    requires i <= |s|
    decreases |s| - i
    ensures i <= n <= |s|
    ensures forall t :: i <= t < n ==> IsSpace(s[t])
    ensures n == |s| || !IsSpace(s[n])
  {
    if i == |s| || !IsSpace(s[i]) then i else SkipSpace(s, i + 1)
  }

  /** The end of `s[lo..j]` once trailing whitespace is dropped. */
  function SkipSpaceBack(s: string, lo: nat, j: nat): (m: nat)
    requires lo <= j <= |s|
    decreases j
    ensures lo <= m <= j
    ensures forall t :: m <= t < j ==> IsSpace(s[t])
    ensures m == lo || !IsSpace(s[m - 1])
  {
    if j == lo || !IsSpace(s[j - 1]) then j else SkipSpaceBack(s, lo, j - 1)
  }

  /** `s.strip()`: `s` with its leading and trailing whitespace removed. */
  function Strip(s: string): (r: string)
    ensures r == "" || (!IsSpace(r[0]) && !IsSpace(r[|r| - 1]))
    ensures exists a: nat :: StrippedAt(s, a, r)
  {
    var a := SkipSpace(s, 0);
    var b := SkipSpaceBack(s, a, |s|);
    assert StrippedAt(s, a, s[a..b]);
    s[a..b]
  }

  /** `r` is `s[a..a + |r|]` and everything of `s` around it is whitespace. */
  ghost predicate StrippedAt(s: string, a: nat, r: string) {
    && a + |r| <= |s|
    && s[a..a + |r|] == r
    && (forall t :: 0 <= t < a ==> IsSpace(s[t]))
    && (forall t :: a + |r| <= t < |s| ==> IsSpace(s[t]))
  }

  /** Stripping twice strips nothing more. */
  lemma StripIdempotent(s: string)
    ensures Strip(Strip(s)) == Strip(s)
  {
    var r := Strip(s);
    if r != "" {
      assert SkipSpace(r, 0) == 0;
      assert SkipSpaceBack(r, 0, |r|) == |r|;
      assert r[0..|r|] == r;
    }
  }

  /** `"User"` for the role `"user"`, `"Assistant"` for every other role. */
  function RoleLabel(role: string): (r: string)
    ensures r == "User" <==> role == "user"
    ensures r == "User" || r == "Assistant"
  {
    if role == "user" then "User" else "Assistant"
  }

  /** The prompt line of one history entry: its role label, a colon, its content. */
  function EntryLine(m: Message): (r: string)
    ensures |r| == |RoleLabel(m.role)| + |m.content| + 3
    ensures r[..|RoleLabel(m.role)|] == RoleLabel(m.role)
    ensures r[|RoleLabel(m.role)|..|RoleLabel(m.role)| + 2] == ": "
    ensures r[|RoleLabel(m.role)| + 2..|r| - 1] == m.content
    ensures r[|r| - 1] == '\n'
  {
    var name := RoleLabel(m.role);
    Seqs.Infix(name + ": ", m.content, "\n");
    name + ": " + m.content + "\n"
  }

  /** The history lines of the prompt, oldest first. */
  function HistoryBlock(h: seq<Message>): (r: string)
    decreases |h|
    ensures r == "" <==> |h| == 0
    ensures |h| > 0 ==> r[|r| - 1] == '\n'
  {
    if |h| == 0 then "" else HistoryBlock(h[..|h| - 1]) + EntryLine(h[|h| - 1])
  }

  /** The transcript part of the prompt: a label line, the transcript, and a
      blank line. */
  function Header(context: string): (r: string)
    ensures |r| == |context| + 14
    ensures r[..12] == "Transcript:\n"
    ensures r[12..12 + |context|] == context
    ensures r[12 + |context|..] == "\n\n"
  {
    Seqs.Infix("Transcript:\n", context, "\n\n");
    Seqs.Suffix("Transcript:\n" + context, "\n\n");
    "Transcript:\n" + context + "\n\n"
  }

  const Cue := "Assistant:"

  /** The prompt of app.py lines 72-76. */
  function Conversation(context: string, history: seq<Message>): (r: string)
    ensures Header(context) <= r
    ensures |r| >= |Header(context)| + |Cue| && r[|r| - |Cue|..] == Cue
  {
    var r := Header(context) + HistoryBlock(history) + Cue;
    Seqs.Infix(Header(context), HistoryBlock(history), Cue);
    Seqs.Suffix(Header(context) + HistoryBlock(history), Cue);
    r
  }

  /** Where the line of entry `i` sits in the prompt. */
  lemma LineInPrompt(context: string, history: seq<Message>, i: nat)
    requires i < |history|
    ensures var r := Conversation(context, history);
      var at := |Header(context)| + |HistoryBlock(history[..i])|;
      at + |EntryLine(history[i])| <= |r| && r[at..at + |EntryLine(history[i])|] == EntryLine(history[i])
  {
    var h, p, e, q := Header(context), HistoryBlock(history[..i]), EntryLine(history[i]), HistoryBlock(history[i + 1..]);
    HistoryBlockAt(history, i);
    Seqs.Regroup(h, p, e, q, Cue);
    Seqs.Infix(h + p, e, q + Cue);
  }

  /** The loop of app.py lines 72-76, which appends one line per history entry. */
  method BuildConversation(context: string, history: seq<Message>) returns (conversation: string)
    ensures conversation == Conversation(context, history)
  {
    conversation := "Transcript:\n" + context + "\n\n";
    var i := 0;
    while i < |history|
      invariant i <= |history|
      invariant conversation == Header(context) + HistoryBlock(history[..i])
    {
      var msg := history[i];
      var role := RoleLabel(msg.role);
      conversation := conversation + (role + ": " + msg.content + "\n");
      NextLine(context, history, i);
      i := i + 1;
    }
    assert history[..i] == history;
    conversation := conversation + "Assistant:";
  }

  /** Appending the line of entry `i` extends the prompt over the first `i`
      entries to the prompt over the first `i + 1`. */
  lemma NextLine(context: string, history: seq<Message>, i: nat)
    requires i < |history|
    ensures Header(context) + HistoryBlock(history[..i]) + EntryLine(history[i])
         == Header(context) + HistoryBlock(history[..i + 1])
  {
    Seqs.DropLast(history[..i], [history[i]]);
    assert history[..i] + [history[i]] == history[..i + 1];
    Seqs.Assoc(Header(context), HistoryBlock(history[..i]), EntryLine(history[i]));
  }

  /** The history lines of two runs of messages, one after the other. */
  lemma {:induction false} HistoryBlockAppend(a: seq<Message>, b: seq<Message>)
    ensures HistoryBlock(a + b) == HistoryBlock(a) + HistoryBlock(b)
    decreases |b|
  {
    if |b| == 0 {
      assert a + b == a;
    } else {
      var n := |b| - 1;
      Seqs.DropLast(a, b);
      var x, y, z := HistoryBlock(a), HistoryBlock(b[..n]), EntryLine(b[n]);
      assert HistoryBlock(a + b) == HistoryBlock(a + b[..n]) + z;
      HistoryBlockAppend(a, b[..n]);
      assert HistoryBlock(b) == y + z;
      Seqs.Assoc(x, y, z);
    }
  }

  /** Entry `i` contributes exactly one line, between the lines of the entries
      before it and those after it. */
  lemma HistoryBlockAt(h: seq<Message>, i: nat)
    requires i < |h|
    ensures HistoryBlock(h) == HistoryBlock(h[..i]) + EntryLine(h[i]) + HistoryBlock(h[i + 1..])
  {
    var pre, post := h[..i], h[i + 1..];
    var upTo := pre + [h[i]];
    Seqs.SplitAround(h, i);
    HistoryBlockAppend(upTo, post);
    assert HistoryBlock(upTo) == HistoryBlock(pre) + EntryLine(h[i]);
  }

  /** One question (app.py lines 63-86).  An empty input changes nothing.
      Otherwise the user's message is appended before the call; the stripped
      answer is appended after a successful call; a failed call leaves the
      user's message without an answer. */
  function Ask(context: string, history: seq<Message>, userInput: string, reply: Reply): (t: Turn)
    ensures userInput == "" ==> t.history == history && t.prompt == None
    ensures userInput != "" ==>
      && history <= t.history
      && |t.history| == |history| + (if reply.Answered? then 2 else 1)
      && t.history[|history|] == Message("user", userInput)
      && t.prompt == Some(Conversation(context, t.history[..|history| + 1]))
    ensures userInput != "" && reply.Answered? ==>
      t.history[|history| + 1] == Message("assistant", Strip(reply.text))
  {
    if userInput == "" then Turn(history, None)
    else
      var asked := history + [Message("user", userInput)];
      var prompt := Conversation(context, asked);
      match reply
      case Answered(text) =>
        assert (asked + [Message("assistant", Strip(text))])[..|history| + 1] == asked;
        Turn(asked + [Message("assistant", Strip(text))], Some(prompt))
      case ProviderFailed =>
        assert asked[..|history| + 1] == asked;
        Turn(asked, Some(prompt))
  }

  lemma QuestionLine(userInput: string)
    ensures EntryLine(Message("user", userInput)) == "User: " + userInput + "\n"
  {
    assert RoleLabel("user") + ": " == "User: ";
  }

  /** The prompt over a history ending in `m` ends with `m`'s line and the
      assistant cue. */
  lemma PromptEndsWithEntry(context: string, history: seq<Message>, m: Message)
    ensures var prompt := Conversation(context, history + [m]);
      var tail := EntryLine(m) + Cue;
      |tail| <= |prompt| && prompt[|prompt| - |tail|..] == tail
  {
    Seqs.DropLast(history, [m]);
    var front, line := Header(context) + HistoryBlock(history), EntryLine(m);
    assert HistoryBlock(history + [m]) == HistoryBlock(history) + line;
    assert Conversation(context, history + [m]) == front + line + Cue;
    Seqs.Assoc(front, line, Cue);
    Seqs.Suffix(front, line + Cue);
  }

  /** The prompt for a question ends with that question and the assistant cue. */
  lemma PromptEndsWithQuestion(context: string, history: seq<Message>, userInput: string)
    ensures var prompt := Conversation(context, history + [Message("user", userInput)]);
      var tail := "User: " + userInput + "\n" + Cue;
      |tail| <= |prompt| && prompt[|prompt| - |tail|..] == tail
  {
    PromptEndsWithEntry(context, history, Message("user", userInput));
    QuestionLine(userInput);
  }
}

=== FILE: languages.dfy ===
/**
 The subtitle-language choices (app.py lines 104 and 110): the listing is
 folded into a dict keyed by language code, so a later entry with the same
 code replaces an earlier one, and the dict's keys are offered sorted.
 */
module Languages {
  import opened Lexicographic

  /** One transcript the listing service offers for a video. */
  datatype TranscriptOption = TranscriptOption(
    languageCode: string,
    language: string,
    isGenerated: bool,
    isTranslatable: bool)

  /** A Python dict from language code to option: its keys in insertion order,
      and its entries. */
  datatype LanguageTable = LanguageTable(keys: seq<string>, entries: map<string, TranscriptOption>)

  /** The language codes of a listing, in listing order. */
  function Codes(listing: seq<TranscriptOption>): seq<string> {
    seq(|listing|, i requires 0 <= i < |listing| => listing[i].languageCode)
  }

  /** No later entry of the listing has the same code as entry `i`. */
  predicate LastOfCode(listing: seq<TranscriptOption>, i: nat)
    requires i < |listing|
  {
    forall j :: i < j < |listing| ==> listing[j].languageCode != listing[i].languageCode
  }

  /** Storing `o` under its code: a new key goes to the end of the key order, an
      existing key keeps its place and gets the new value. */
  function Put(t: LanguageTable, o: TranscriptOption): (r: LanguageTable)
    ensures o.languageCode in r.entries && r.entries[o.languageCode] == o
    ensures r.entries - {o.languageCode} == t.entries - {o.languageCode}
    ensures o.languageCode in t.entries ==> r.keys == t.keys
    ensures o.languageCode !in t.entries ==> r.keys == t.keys + [o.languageCode]
  {
    if o.languageCode in t.entries then
      t.(entries := t.entries[o.languageCode := o])
    else
      LanguageTable(t.keys + [o.languageCode], t.entries[o.languageCode := o])
  }

  /** The dict built from the listing, keyed by language code, in listing order. */
  function BuildTable(listing: seq<TranscriptOption>): (r: LanguageTable)
    ensures |r.keys| <= |listing|
    ensures |listing| > 0 ==>
      var last := listing[|listing| - 1];
      last.languageCode in r.entries && r.entries[last.languageCode] == last
  {
    if |listing| == 0 then LanguageTable([], map[])
    else Put(BuildTable(listing[..|listing| - 1]), listing[|listing| - 1])
  }

  /** The dict holds exactly the listing's codes, each once. */
  lemma TableKeys(listing: seq<TranscriptOption>)
    ensures var t := BuildTable(listing);
      && Distinct(t.keys)
      && (forall k :: k in t.keys <==> k in t.entries)
      && (forall k :: k in t.entries <==> k in Codes(listing))
      && (|t.keys| == 0 <==> |listing| == 0)
  {
    TableShape(listing);
    TableCodes(listing);
  }

  /** The key order is duplicate-free and lists exactly the entries' keys. */
  lemma {:induction false} TableShape(listing: seq<TranscriptOption>)
    ensures var t := BuildTable(listing);
      Distinct(t.keys) && forall k :: k in t.keys <==> k in t.entries
  {
    if |listing| > 0 {
      var prefix := listing[..|listing| - 1];
      TableShape(prefix);
      PutKeepsTableShape(BuildTable(prefix), listing[|listing| - 1]);
    }
  }

  /** The entries' keys are exactly the listing's codes. */
  lemma {:induction false} TableCodes(listing: seq<TranscriptOption>)
    ensures forall k :: k in BuildTable(listing).entries <==> k in Codes(listing)
  {
    if |listing| > 0 {
      var n := |listing| - 1;
      var prefix := listing[..n];
      TableCodes(prefix);
      assert Codes(listing) == Codes(prefix) + [listing[n].languageCode];
    }
  }

  /** Every entry of the dict is an entry of the listing, under its own code. */
  lemma {:induction false} TableEntriesFromListing(listing: seq<TranscriptOption>)
    ensures var t := BuildTable(listing);
      forall k :: k in t.entries ==> t.entries[k] in listing && t.entries[k].languageCode == k
  {
    if |listing| > 0 {
      var n := |listing| - 1;
      var prefix := listing[..n];
      TableEntriesFromListing(prefix);
      var o := listing[n];
      assert BuildTable(listing).entries == BuildTable(prefix).entries[o.languageCode := o];
      assert forall x :: x in prefix ==> x in listing;
    }
  }

  /** On duplicate codes the last entry of the listing wins. */
  lemma {:induction false} TableLastWins(listing: seq<TranscriptOption>)
    ensures var t := BuildTable(listing);
      && (forall i :: 0 <= i < |listing| ==> listing[i].languageCode in t.entries)
      && (forall i :: 0 <= i < |listing| && LastOfCode(listing, i) ==>
            t.entries[listing[i].languageCode] == listing[i])
  {
    if |listing| > 0 {
      var n := |listing| - 1;
      var prefix := listing[..n];
      TableLastWins(prefix);
      var o := listing[n];
      var m := BuildTable(listing).entries;
      assert m == BuildTable(prefix).entries[o.languageCode := o];
      forall i | 0 <= i < n
        ensures listing[i].languageCode in m
        ensures LastOfCode(listing, i) ==> m[listing[i].languageCode] == listing[i]
      {
        assert prefix[i] == listing[i];
        if LastOfCode(listing, i) {
          assert LastOfCode(prefix, i);
          assert listing[i].languageCode != o.languageCode;
        }
      }
    }
  }

  /** `Put` keeps the key order duplicate-free and in step with the entries. */
  lemma PutKeepsTableShape(t: LanguageTable, o: TranscriptOption)
    requires Distinct(t.keys) && forall k :: k in t.keys <==> k in t.entries
    ensures Distinct(Put(t, o).keys)
    ensures forall k :: k in Put(t, o).keys <==> k in Put(t, o).entries
    ensures Put(t, o).entries == t.entries[o.languageCode := o]
  {
  }

  /** The codes offered in the language selector: the dict's keys, sorted. */
  function LanguageOptions(listing: seq<TranscriptOption>): (r: seq<string>)
    ensures StrictlySorted(r)
    ensures forall k :: k in r <==> k in Codes(listing)
    ensures |r| == 0 <==> |listing| == 0
  {
    var keys := BuildTable(listing).keys;
    TableKeys(listing);
    var r := Sort(keys);
    assert forall k :: k in r <==> k in multiset(r);
    assert forall k :: k in keys <==> k in multiset(keys);
    assert |r| == |multiset(r)| == |multiset(keys)| == |keys|;
    DistinctFromMultiset(keys, r);
    SortedDistinctIsStrict(r);
    r
  }

  /** A permutation of a duplicate-free sequence is duplicate-free. */
  lemma DistinctFromMultiset(a: seq<string>, b: seq<string>)
    requires Distinct(a) && multiset(a) == multiset(b)
    ensures Distinct(b)
  {
    forall x | x in multiset(a)
      ensures multiset(a)[x] == 1
    {
      DistinctCount(a, x);
    }
    forall i, j | 0 <= i < j < |b|
      ensures b[i] != b[j]
    {
      if b[i] == b[j] {
        RepeatCounted(b, i, j);
      }
    }
  }

  lemma RepeatCounted(b: seq<string>, i: nat, j: nat)
    requires i < j < |b| && b[i] == b[j]
    ensures multiset(b)[b[i]] >= 2
  {
    assert b == b[..i] + [b[i]] + b[i + 1..j] + [b[j]] + b[j + 1..];
  }

  lemma {:induction false} DistinctCount(a: seq<string>, x: string)
    requires Distinct(a) && x in a
    ensures multiset(a)[x] == 1
  {
    var n := |a| - 1;
    assert a == a[..n] + [a[n]];
    if a[n] == x {
      assert x !in a[..n];
    } else {
      DistinctCount(a[..n], x);
    }
  }

  /** The options depend only on which codes the listing holds, never on the
      order in which the service returned them. */
  lemma OptionsIgnoreListingOrder(l1: seq<TranscriptOption>, l2: seq<TranscriptOption>)
    requires forall k :: k in Codes(l1) <==> k in Codes(l2)
    ensures LanguageOptions(l1) == LanguageOptions(l2)
  {
    SortedUnique(LanguageOptions(l1), LanguageOptions(l2));
  }
}

=== FILE: lexicographic.dfy ===
/**
 Python's ordering on `str` and `sorted` on a list of strings.

 Python compares strings character by character by code point, and a proper
 prefix sorts first.  (Dafny's own `<` on sequences means "proper prefix", so
 the order is defined here.)  `sorted` is modelled as insertion sort; the
 result depends only on the multiset of its input, which `SortedUnique` states.
 */
module Lexicographic {

  /** `a < b` on Python strings: a proper prefix sorts first, and two
      different strings never compare below each other both ways. */
  function Less(a: string, b: string): (r: bool)
    decreases |a|
    ensures a < b ==> r
    ensures r ==> a != b
  {
    if |a| == 0 then |b| > 0
    else |b| > 0 && (a[0] < b[0] || (a[0] == b[0] && Less(a[1..], b[1..])))
  }

  predicate LessEq(a: string, b: string) {
    a == b || Less(a, b)
  }

  /** `Less` is the usual lexicographic order: either `a` is a proper prefix
      of `b`, or at the first index where they differ `a` has the smaller
      code point. */
  lemma {:induction false} LessIsFirstDifference(a: string, b: string)
    ensures Less(a, b) <==>
      || a < b
      || exists k: nat :: k < |a| && k < |b| && a[..k] == b[..k] && a[k] < b[k]
    decreases |a|
  {
    if |a| > 0 && |b| > 0 {
      if a[0] == b[0] {
        var a', b' := a[1..], b[1..];
        LessIsFirstDifference(a', b');
        assert a == [a[0]] + a' && b == [b[0]] + b';
        assert a < b <==> a' < b';
        if k: nat :| k < |a'| && k < |b'| && a'[..k] == b'[..k] && a'[k] < b'[k] {
          assert a[..k + 1] == [a[0]] + a'[..k] && b[..k + 1] == [b[0]] + b'[..k];
          assert a[k + 1] == a'[k] && b[k + 1] == b'[k];
        }
        if k: nat :| k < |a| && k < |b| && a[..k] == b[..k] && a[k] < b[k] {
          assert k > 0;
          assert a[1..k] == a[..k][1..] && b[1..k] == b[..k][1..];
          assert a'[..k - 1] == a[1..k] == b[1..k] == b'[..k - 1];
          assert a'[k - 1] == a[k] && b'[k - 1] == b[k];
        }
      } else {
        assert !(a < b);
        if a[0] < b[0] {
          assert a[..0] == b[..0];
        }
        forall k: nat | 0 < k <= |a| && k <= |b|
          ensures a[..k] != b[..k]
        {
          assert a[..k][0] == a[0] && b[..k][0] == b[0];
        }
      }
    }
  }

  /** No two positions of `s` hold the same string. */
  predicate Distinct(s: seq<string>) {
    forall i, j :: 0 <= i < j < |s| ==> s[i] != s[j]
  }

  lemma {:induction false} LessIrreflexive(a: string)
    ensures !Less(a, a)
    decreases |a|
  {
    if |a| > 0 {
      LessIrreflexive(a[1..]);
    }
  }

  lemma {:induction false} LessTransitive(a: string, b: string, c: string)
    requires Less(a, b) && Less(b, c)
    ensures Less(a, c)
    decreases |a|
  {
    if |a| > 0 && a[0] == b[0] && b[0] == c[0] {
      LessTransitive(a[1..], b[1..], c[1..]);
    }
  }

  /** Any two distinct strings are ordered one way or the other. */
  lemma {:induction false} LessTotal(a: string, b: string)
    ensures a == b || Less(a, b) || Less(b, a)
    decreases |a|
  {
    if |a| > 0 && |b| > 0 && a[0] == b[0] {
      LessTotal(a[1..], b[1..]);
      if a[1..] == b[1..] {
        assert a == [a[0]] + a[1..] && b == [b[0]] + b[1..];
      }
    }
  }

  lemma LessAsymmetric(a: string, b: string)
    requires Less(a, b)
    ensures !Less(b, a)
  {
    if Less(b, a) {
      LessTransitive(a, b, a);
      LessIrreflexive(a);
    }
  }

  /** Ascending, as `sorted` leaves a list. */
  predicate Sorted(s: seq<string>) {
    forall i, j :: 0 <= i < j < |s| ==> LessEq(s[i], s[j])
  }

  /** Strictly ascending, so also free of duplicates. */
  predicate StrictlySorted(s: seq<string>) {
    forall i, j :: 0 <= i < j < |s| ==> Less(s[i], s[j])
  }

  /** `x` placed before the first element it does not follow. */
  function Insert(x: string, s: seq<string>): (r: seq<string>)
    requires Sorted(s)
    ensures Sorted(r)
    ensures multiset(r) == multiset(s) + multiset{x}
  {
    if |s| == 0 then [x]
    else if LessEq(x, s[0]) then
      LessEqAllAfter(x, s);
      [x] + s
    else
      var rest := Insert(x, s[1..]);
      LessTotal(x, s[0]);
      assert s == [s[0]] + s[1..];
      HeadBelowRest(s[0], x, s[1..], rest);
      [s[0]] + rest
  }

  /** Python's `sorted` on strings, computed by insertion sort. */
  function Sort(xs: seq<string>): (r: seq<string>)
    ensures Sorted(r)
    ensures multiset(r) == multiset(xs)
  {
    if |xs| == 0 then []
    else
      assert xs == [xs[0]] + xs[1..];
      Insert(xs[0], Sort(xs[1..]))
  }

  /** If `x` is at most the head of a sorted sequence, `[x] + s` is sorted. */
  lemma LessEqAllAfter(x: string, s: seq<string>)
    requires Sorted(s) && |s| > 0 && LessEq(x, s[0])
    ensures Sorted([x] + s)
  {
    forall j | 0 < j < |s|
      ensures LessEq(x, s[j])
    {
      if x != s[0] && s[0] != s[j] {
        LessTransitive(x, s[0], s[j]);
      }
    }
  }

  /** A head below `x` and below every element of `tail` stays below everything
      `Insert(x, tail)` holds. */
  lemma HeadBelowRest(h: string, x: string, tail: seq<string>, rest: seq<string>)
    requires Sorted([h] + tail) && Less(h, x)
    requires Sorted(rest) && multiset(rest) == multiset(tail) + multiset{x}
    ensures Sorted([h] + rest)
  {
    forall j | 0 <= j < |rest|
      ensures LessEq(h, rest[j])
    {
      assert rest[j] in multiset(rest);
      if rest[j] != x {
        assert rest[j] in multiset(tail);
        assert rest[j] in tail;
        var t :| 0 <= t < |tail| && tail[t] == rest[j];
        assert ([h] + tail)[0] == h && ([h] + tail)[t + 1] == tail[t];
      }
    }
  }

  /** A sorted sequence without duplicates is strictly sorted. */
  lemma SortedDistinctIsStrict(s: seq<string>)
    requires Sorted(s) && Distinct(s)
    ensures StrictlySorted(s)
  {
  }

  /** Two strictly sorted sequences with the same elements are equal: the
      sorted order of a set of strings is unique. */
  lemma {:induction false} SortedUnique(a: seq<string>, b: seq<string>)
    requires StrictlySorted(a) && StrictlySorted(b)
    requires forall x :: x in a <==> x in b
    ensures a == b
    decreases |a|
  {
    // A non-empty side holds an element the other side must share.
    assert |a| > 0 ==> a[0] in b;
    assert |b| > 0 ==> b[0] in a;
    if |a| > 0 && |b| > 0 {
      assert a == [a[0]] + a[1..] && b == [b[0]] + b[1..];
      if a[0] != b[0] {
        assert a[0] in a && b[0] in b;
        var i :| 0 <= i < |b| && b[i] == a[0];
        var j :| 0 <= j < |a| && a[j] == b[0];
        assert Less(b[0], a[0]) by {
          assert i > 0;
        }
        assert Less(a[0], b[0]) by {
          assert j > 0;
        }
        LessAsymmetric(a[0], b[0]);
      }
      forall x
        ensures x in a[1..] <==> x in b[1..]
      {
        LessIrreflexive(x);
        if x in a[1..] {
          var i :| 0 <= i < |a[1..]| && a[1..][i] == x;
          assert a[i + 1] == x && Less(a[0], x);
          assert x in b;
        }
        if x in b[1..] {
          var i :| 0 <= i < |b[1..]| && b[1..][i] == x;
          assert b[i + 1] == x && Less(b[0], x);
          assert x in a;
        }
      }
      SortedUnique(a[1..], b[1..]);
    }
  }
}

=== FILE: seqs.dfy ===
/** Small facts about sequence concatenation and slicing, stated once over any
    element type so that the proofs about prompts and transcripts can cite
    them without unfolding their own definitions. */
module Seqs {
  /** `y` sits in `x + y + z` right after `x`. */
  lemma Infix<T>(x: seq<T>, y: seq<T>, z: seq<T>)
    ensures (x + y + z)[|x|..|x| + |y|] == y
    ensures (x + y + z)[..|x|] == x
  {
  }

  /** `y` is the last `|y|` elements of `x + y`. */
  lemma Suffix<T>(x: seq<T>, y: seq<T>)
    ensures (x + y)[|x + y| - |y|..] == y
  {
  }

  lemma Assoc<T>(x: seq<T>, y: seq<T>, z: seq<T>)
    ensures (x + y) + z == x + (y + z)
  {
  }

  /** Moving the brackets of a five-part concatenation. */
  lemma Regroup<T>(a: seq<T>, b: seq<T>, c: seq<T>, d: seq<T>, e: seq<T>)
    ensures a + (b + c + d) + e == (a + b) + c + (d + e)
  {
  }

  /** A six-part concatenation is the concatenation of its two halves. */
  lemma Halves<T>(a: seq<T>, b: seq<T>, c: seq<T>, d: seq<T>, e: seq<T>, f: seq<T>, x: seq<T>, y: seq<T>)
    requires a + b + c == x && d + e + f == y
    ensures a + b + c + d + e + f == x + y
  {
  }

  /** Dropping the last element of `a + b` drops it from `b`. */
  lemma DropLast<T>(a: seq<T>, b: seq<T>)
    requires |b| > 0
    ensures (a + b)[..|a + b| - 1] == a + b[..|b| - 1]
    ensures (a + b)[|a + b| - 1] == b[|b| - 1]
  {
  }

  /** `s` cut around its element `i`. */
  lemma SplitAround<T>(s: seq<T>, i: nat)
    requires i < |s|
    ensures s == (s[..i] + [s[i]]) + s[i + 1..]
    ensures (s[..i] + [s[i]])[..i] == s[..i]
    ensures |s[..i] + [s[i]]| == i + 1
  {
  }
}

=== FILE: transcript.dfy ===
/**
 Transcript text (app.py line 119): the `text` of every caption line, in the
 order the fetch service returned them, joined by newlines; timing is dropped.
 `Split` (Python's `s.split("\n")`) is the inverse used to state what the
 joined text keeps.
 */
module Transcript {
  import Seqs

  /** One timed caption; only `text` is consumed. */
  datatype CaptionLine = CaptionLine(text: string, start: real, duration: real)

  /** The lines, with one newline between each neighbouring pair. */
  function Join(lines: seq<string>): (r: string)
    decreases |lines|
    ensures |lines| == 0 ==> r == ""
    ensures |lines| > 0 ==> lines[0] <= r
  {
    if |lines| == 0 then ""
    else if |lines| == 1 then lines[0]
    else
      var rest := Join(lines[1..]);
      Seqs.Infix(lines[0], "\n", rest);
      lines[0] + "\n" + rest
  }

  /** The caption texts, in order. */
  function Texts(captions: seq<CaptionLine>): (r: seq<string>)
    ensures |r| == |captions| && forall i :: 0 <= i < |captions| ==> r[i] == captions[i].text
  {
    seq(|captions|, i requires 0 <= i < |captions| => captions[i].text)
  }

  /** The text shown for a fetched transcript: the caption texts joined by
      newlines.  Splitting it at its newlines gives back the caption texts
      whenever none of them holds a newline itself. */
  function TranscriptText(captions: seq<CaptionLine>): (r: string)
    ensures |captions| == 0 ==> r == ""
    ensures |captions| == 1 ==> r == captions[0].text
    ensures |captions| > 0 && (forall i :: 0 <= i < |captions| ==> '\n' !in captions[i].text) ==>
      Split(r) == Texts(captions)
  {
    var lines := Texts(captions);
    SplitJoin(lines);
    Join(lines)
  }

  /** Index of the first newline of `s`. */
  function FirstNewline(s: string): (i: nat)
    requires '\n' in s
    ensures i < |s| && s[i] == '\n' && '\n' !in s[..i]
  {
    if s[0] == '\n' then 0
    else
      assert s == [s[0]] + s[1..];
      var i := FirstNewline(s[1..]);
      assert s[..i + 1] == [s[0]] + s[1..][..i];
      i + 1
  }

  /** A newline with none before it is the first newline. */
  lemma FirstNewlineAt(s: string, k: nat)
    requires k < |s| && s[k] == '\n' && '\n' !in s[..k]
    ensures FirstNewline(s) == k
  {
    var i := FirstNewline(s);
    assert forall t :: 0 <= t < k ==> s[..k][t] == s[t];
    assert forall t :: 0 <= t < i ==> s[..i][t] == s[t];
  }

  /** `s.split("\n")`: the pieces between newlines, never an empty list. */
  function Split(s: string): (r: seq<string>)
    decreases |s|
    ensures |r| > 0
    ensures forall i :: 0 <= i < |r| ==> '\n' !in r[i]
  {
    if '\n' !in s then [s]
    else
      var i := FirstNewline(s);
      [s[..i]] + Split(s[i + 1..])
  }

  /** The transcript of two non-empty runs of captions is their transcripts
      with one newline between them. */
  lemma TranscriptTextAppend(a: seq<CaptionLine>, b: seq<CaptionLine>)
    requires |a| > 0 && |b| > 0
    ensures TranscriptText(a + b) == TranscriptText(a) + "\n" + TranscriptText(b)
  {
    assert Texts(a + b) == Texts(a) + Texts(b);
    JoinAppend(Texts(a), Texts(b));
  }

  /** Joining two non-empty runs of lines puts one newline between them. */
  lemma {:induction false} JoinAppend(a: seq<string>, b: seq<string>)
    requires |a| > 0 && |b| > 0
    ensures Join(a + b) == Join(a) + "\n" + Join(b)
    decreases |a|
  {
    if |a| == 1 {
      assert (a + b)[1..] == b;
    } else {
      JoinAppend(a[1..], b);
      assert (a + b)[1..] == a[1..] + b;
    }
  }

  /** The joined text is as long as its lines plus one newline between each
      neighbouring pair. */
  lemma {:induction false} JoinLength(lines: seq<string>)
    requires |lines| > 0
    ensures |Join(lines)| == TotalLength(lines) + |lines| - 1
    decreases |lines|
  {
    if |lines| > 1 {
      JoinLength(lines[1..]);
    }
  }

  function TotalLength(lines: seq<string>): nat
    decreases |lines|
  {
    if |lines| == 0 then 0 else |lines[0]| + TotalLength(lines[1..])
  }

  /** Splitting after a newline-free first line. */
  lemma SplitAfterLine(head: string, rest: string)
    requires '\n' !in head
    ensures Split(head + "\n" + rest) == [head] + Split(rest)
  {
    var s := head + "\n" + rest;
    assert s[|head|] == '\n' && s[..|head|] == head;
    FirstNewlineAt(s, |head|);
    assert s[|head| + 1..] == rest;
  }

  /** When no line holds a newline, splitting the joined text gives back the
      lines, in order. */
  lemma {:induction false} SplitJoin(lines: seq<string>)
    ensures |lines| > 0 && (forall i :: 0 <= i < |lines| ==> '\n' !in lines[i]) ==>
      Split(Join(lines)) == lines
    decreases |lines|
  {
    if |lines| > 0 && forall i :: 0 <= i < |lines| ==> '\n' !in lines[i] {
      var head := lines[0];
      if |lines| == 1 {
        assert Split(head) == [head];
      } else {
        var tail := lines[1..];
        assert Join(lines) == head + "\n" + Join(tail);
        forall i | 0 <= i < |tail|
          ensures '\n' !in tail[i]
        {
          assert tail[i] == lines[i + 1];
        }
        SplitJoin(tail);
        SplitAfterLine(head, Join(tail));
        assert lines == [head] + tail;
      }
    }
  }

  /** Joining the pieces of any string with newlines gives the string back. */
  lemma {:induction false} JoinSplit(s: string)
    ensures Join(Split(s)) == s
    decreases |s|
  {
    if '\n' in s {
      var i := FirstNewline(s);
      var rest := Split(s[i + 1..]);
      JoinSplit(s[i + 1..]);
      var pieces := [s[..i]] + rest;
      assert Split(s) == pieces;
      assert pieces[0] == s[..i] && pieces[1..] == rest;
      assert Join(pieces) == s[..i] + "\n" + Join(rest);
      Seqs.SplitAround(s, i);
    }
  }
}

=== FILE: url_examples.dfy ===
/** The URL shapes the application is meant to accept, worked through the
    resolver's contract.  Each example is split into "nothing matches before
    the marker" and "the run after the marker is the id". */
module ResolverExamples {
  import opened Wrappers
  import opened UrlResolver
  import Seqs

  /** "youtube.com" at `at` holds no standard match: its `y` does not start `youtu.be/`. */
  lemma YoutubeHostHasNoStandardMatch(url: string, at: nat)
    requires at + 11 <= |url| && url[at..at + 11] == "youtube.com"
    ensures forall j: nat :: at <= j < at + 11 ==> !MatchesAt(Standard, url, j)
  {
    assert url[at..at + 11][0] == url[at] == 'y';
    assert url[at..at + 11][5] == url[at + 5] == 'b';
    if at + 9 <= |url| {
      assert url[at..at + 9][5] == url[at + 5];
    }
    assert !AltMatchesAt(Standard, url, at, 0) && !AltMatchesAt(Standard, url, at, 1);
    assert url[at + 1..at + 11] == "outube.com";
    NoMatchInStretch(Standard, url, at + 1, at + 11);
  }

  lemma WatchPrefixHasNoMatch(url: string)
    requires url == "https://www." + "youtube.com" + "/watch?" + "v=ABC123&t=10"
    ensures forall j: nat :: j < 30 ==> !MatchesAt(Standard, url, j)
  {
    assert url[..12] == "https://www.";
    NoMatchInStretch(Standard, url, 0, 12);
    assert url[12..23] == "youtube.com";
    YoutubeHostHasNoStandardMatch(url, 12);
    assert url[23..30] == "/watch?";
    NoMatchInStretch(Standard, url, 23, 30);
  }

  /** A watch page: the id runs from `v=` up to the next `&`. */
  lemma WatchPageExample()
    ensures GetYoutubeId("https://www.youtube.com/watch?v=ABC123&t=10") == Some("ABC123")
  {
    var url := "https://www." + "youtube.com" + "/watch?" + "v=ABC123&t=10";
    assert url == "https://www.youtube.com/watch?v=ABC123&t=10";
    WatchPrefixHasNoMatch(url);
    assert url[30..32] == "v=";
    assert url[32..38] == "ABC123";
    StandardIdResolves(url, 30, 0, "ABC123");
  }

  /** A short link: the id runs from `youtu.be/` up to the next `?`. */
  lemma ShortLinkExample()
    ensures GetYoutubeId("https://youtu.be/ABC123?si=xyz") == Some("ABC123")
  {
    var url := "https://" + "youtu.be/" + "ABC123" + "?si=xyz";
    assert url == "https://youtu.be/ABC123?si=xyz";
    assert url[..8] == "https://";
    NoMatchInStretch(Standard, url, 0, 8);
    assert url[8..17] == "youtu.be/";
    assert url[17..23] == "ABC123";
    StandardIdResolves(url, 8, 1, "ABC123");
  }

  lemma ShortsUrlHasNoStandardMatch(url: string)
    requires url == "https://www." + "youtube.com" + "/" + "shorts/" + "dQw4w9WgXcQ" + "?feature=share"
    ensures NoMatch(Standard, url)
  {
    assert url[..12] == "https://www.";
    NoMatchInStretch(Standard, url, 0, 12);
    assert url[12..23] == "youtube.com";
    YoutubeHostHasNoStandardMatch(url, 12);
    assert url[23..] == "/" + "shorts/" + "dQw4w9WgXcQ" + "?feature=share";
    NoMatchInStretch(Standard, url, 23, |url|);
  }

  lemma ShortsPrefixHasNoShortsMatch(url: string)
    requires url == "https://www." + "youtube.com" + "/" + "shorts/" + "dQw4w9WgXcQ" + "?feature=share"
    ensures forall j: nat :: j < 24 ==> !MatchesAt(Shorts, url, j)
  {
    assert url[..4] == "http";
    NoMatchInStretch(Shorts, url, 0, 4);
    assert url[4..11][1] == url[5] == ':';
    assert !AltMatchesAt(Shorts, url, 4, 0);
    assert url[5..24] == "://www." + "youtube.com" + "/";
    NoMatchInStretch(Shorts, url, 5, 24);
  }

  lemma ShortsUrlHost()
    ensures "https://www." + "youtube.com" + "/" == "https://www.youtube.com/"
  {
  }

  lemma ShortsUrlPath()
    ensures "shorts/" + "dQw4w9WgXcQ" + "?feature=share" == "shorts/dQw4w9WgXcQ?feature=share"
  {
  }

  lemma ShortsUrlWhole()
    ensures "https://www.youtube.com/" + "shorts/dQw4w9WgXcQ?feature=share"
         == "https://www.youtube.com/shorts/dQw4w9WgXcQ?feature=share"
  {
  }

  /** The shorts URL written as the pieces its proof slices at. */
  lemma ShortsUrlPieces()
    ensures "https://www.youtube.com/shorts/dQw4w9WgXcQ?feature=share"
         == "https://www." + "youtube.com" + "/" + "shorts/" + "dQw4w9WgXcQ" + "?feature=share"
  {
    ShortsUrlHost();
    ShortsUrlPath();
    ShortsUrlWhole();
    Seqs.Halves("https://www.", "youtube.com", "/", "shorts/", "dQw4w9WgXcQ", "?feature=share",
      "https://www.youtube.com/", "shorts/dQw4w9WgXcQ?feature=share");
  }

  /** A short: only the shorts pattern matches; the id runs up to the next `?`. */
  lemma ShortsExample()
    ensures GetYoutubeId("https://www.youtube.com/shorts/dQw4w9WgXcQ?feature=share") == Some("dQw4w9WgXcQ")
  {
    var url := "https://www." + "youtube.com" + "/" + "shorts/" + "dQw4w9WgXcQ" + "?feature=share";
    ShortsUrlPieces();
    ShortsUrlHasNoStandardMatch(url);
    ShortsPrefixHasNoShortsMatch(url);
    assert url[24..31] == "shorts/";
    assert url[31..42] == "dQw4w9WgXcQ";
    ShortsIdResolves(url, 24, "dQw4w9WgXcQ");
  }

  /** An empty id after `v=` does not match there; the search moves on. */
  lemma EmptyIdSkippedExample()
    ensures GetYoutubeId("v=&v=abc") == Some("abc")
  {
    var url := "v=&v=abc";
    assert url[2] == '&';
    assert !AltMatchesAt(Standard, url, 0, 0) && !AltMatchesAt(Standard, url, 0, 1);
    assert url[1..3] == "=&";
    NoMatchInStretch(Standard, url, 1, 3);
    assert url[3..5] == "v=";
    assert url[5..] == "abc";
    StandardIdResolves(url, 3, 0, "abc");
  }

  /** The id of a short may contain `&`. */
  lemma ShortsIdKeepsAmpersandExample()
    ensures GetYoutubeId("shorts/a&b?x") == Some("a&b")
  {
    var url := "shorts/a&b?x";
    NoMatchInStretch(Standard, url, 0, |url|);
    assert url[..7] == "shorts/";
    assert url[7..10] == "a&b";
    ShortsIdResolves(url, 0, "a&b");
  }

  /** A URL with neither pattern resolves to nothing. */
  lemma NoIdExample()
    ensures GetYoutubeId("https://example.com/") == None
  {
    var url := "http" + "s" + "://example.com/";
    assert url == "https://example.com/";
    NoStandardInExampleCom(url);
    NoShortsInExampleCom(url);
  }

  lemma NoStandardInExampleCom(url: string)
    requires url == "http" + "s" + "://example.com/"
    ensures NoMatch(Standard, url)
  {
    assert url[0..|url|] == url;
    NoMatchInStretch(Standard, url, 0, |url|);
  }

  /** The one `s` of "https://example.com/" is not followed by "horts/". */
  lemma NoShortsInExampleCom(url: string)
    requires url == "http" + "s" + "://example.com/"
    ensures NoMatch(Shorts, url)
  {
    assert url[..4] == "http";
    NoMatchInStretch(Shorts, url, 0, 4);
    assert url[4..11][1] == url[5] == ':';
    assert !AltMatchesAt(Shorts, url, 4, 0);
    assert url[5..] == "://example.com/";
    NoMatchInStretch(Shorts, url, 5, |url|);
  }
}

=== FILE: url_resolver.dfy ===
/**
 Video-id extraction (`get_youtube_id`, app.py lines 26-36).

 Each regular expression of the source has the shape `(?:m0|m1|...)([^stops]+)`:
 a choice of literal markers followed by a greedy, non-empty run of characters
 outside a stop set.  Python's `re.search` tries start positions from left to
 right, at each position tries the alternatives in order, and lets the run take
 as many characters as it can.  This module states that search declaratively
 (`MatchesAt`, `LeftmostAt`, `CaptureAt`) and computes it by explicit index
 scanning (`FirstAlt`, `Search`, `RunEnd`).
 */
module UrlResolver {
  import opened Wrappers

  /** A pattern `(?:markers[0]|markers[1]|...)([^stops]+)`. */
  datatype Pattern = Pattern(markers: seq<string>, stops: set<char>)

  /** Watch pages and short links: the id follows `v=` or `youtu.be/` and
      stops at `&` or `?`. */
  const Standard: Pattern := Pattern(["v=", "youtu.be/"], {'&', '?'})

  /** Shorts: the id follows `shorts/` and stops only at `?`, so it may
      contain `&`. */
  const Shorts: Pattern := Pattern(["shorts/"], {'?'})

  /** The literal `m` occurs in `s` starting at index `i`. */
  predicate OccursAt(s: string, i: nat, m: string) {
    i + |m| <= |s| && s[i..i + |m|] == m
  }

  /** Alternative `k` of `p` matches at `i`: its marker starts at `i` and is
      followed by at least one character outside the stop set. */
  predicate AltMatchesAt(p: Pattern, s: string, i: nat, k: nat) {
    && k < |p.markers|
    && OccursAt(s, i, p.markers[k])
    && i + |p.markers[k]| < |s|
    && s[i + |p.markers[k]|] !in p.stops
  }

  /** Alternative `k` is the first of `p`'s alternatives that matches at `i`,
      the one a regular-expression alternation commits to. */
  ghost predicate FirstAltAt(p: Pattern, s: string, i: nat, k: nat) {
    AltMatchesAt(p, s, i, k) && forall k': nat :: k' < k ==> !AltMatchesAt(p, s, i, k')
  }

  /** Some alternative of `p` matches at `i`. */
  ghost predicate MatchesAt(p: Pattern, s: string, i: nat) {
    exists k: nat :: AltMatchesAt(p, s, i, k)
  }

  /** `p` matches nowhere in `s`. */
  ghost predicate NoMatch(p: Pattern, s: string) {
    forall i: nat :: !MatchesAt(p, s, i)
  }

  /** `i` is the position `re.search` settles on: a match, and none earlier. */
  ghost predicate LeftmostAt(p: Pattern, s: string, i: nat) {
    MatchesAt(p, s, i) && forall j: nat :: j < i ==> !MatchesAt(p, s, j)
  }

  /** The first alternative, at index `k` or later, that matches at `i`. */
  function FirstAlt(p: Pattern, s: string, i: nat, k: nat): (r: Option<nat>)
    decreases |p.markers| - k
    ensures r.Some? ==> k <= r.value && AltMatchesAt(p, s, i, r.value)
    ensures r.Some? ==> forall k': nat :: k <= k' < r.value ==> !AltMatchesAt(p, s, i, k')
    ensures r.None? ==> forall k': nat :: k <= k' ==> !AltMatchesAt(p, s, i, k')
  {
    if k >= |p.markers| then None
    else if AltMatchesAt(p, s, i, k) then Some(k)
    else FirstAlt(p, s, i, k + 1)
  }

  /** Where the captured id starts when `p` matches at `i`: just after the
      marker of the first alternative that matches there. */
  function IdStart(p: Pattern, s: string, i: nat): (j: nat)
    requires MatchesAt(p, s, i)
    ensures i <= j < |s| && s[j] !in p.stops
    ensures exists k: nat :: FirstAltAt(p, s, i, k) && j == i + |p.markers[k]|
  {
    var k := FirstAlt(p, s, i, 0).value;
    assert FirstAltAt(p, s, i, k);
    i + |p.markers[k]|
  }

  /** End of the longest run of non-stop characters starting at `j`. */
  function RunEnd(s: string, j: nat, stops: set<char>): (e: nat)
    requires j <= |s|
    decreases |s| - j
    ensures j <= e <= |s|
    ensures forall t :: j <= t < e ==> s[t] !in stops
    ensures e == |s| || s[e] in stops
  {
    if j == |s| || s[j] in stops then j else RunEnd(s, j + 1, stops)
  }

  /** The group `p` captures when its match starts at `i`. */
  function CaptureAt(p: Pattern, s: string, i: nat): (id: string)
    requires MatchesAt(p, s, i)
    ensures |id| > 0
    ensures forall t :: 0 <= t < |id| ==> id[t] !in p.stops
    ensures IdStart(p, s, i) + |id| <= |s| && s[IdStart(p, s, i)..IdStart(p, s, i) + |id|] == id
    ensures var e := IdStart(p, s, i) + |id|; e == |s| || s[e] in p.stops
  {
    var j := IdStart(p, s, i);
    s[j..RunEnd(s, j, p.stops)]
  }

  /** The leftmost position at `from` or later where `p` matches. */
  function Search(p: Pattern, s: string, from: nat): (r: Option<nat>)
    requires from <= |s|
    decreases |s| - from
    ensures r.Some? ==> from <= r.value < |s| && MatchesAt(p, s, r.value)
    ensures r.Some? ==> forall j: nat :: from <= j < r.value ==> !MatchesAt(p, s, j)
    ensures r.None? ==> forall j: nat :: from <= j ==> !MatchesAt(p, s, j)
  {
    if from == |s| then None
    else if FirstAlt(p, s, from, 0).Some? then Some(from)
    else Search(p, s, from + 1)
  }

  /** Python's `re.search` with `p`, then its first group. */
  function Find(p: Pattern, s: string): (r: Option<string>)
    ensures r.None? <==> NoMatch(p, s)
    ensures forall i: nat :: LeftmostAt(p, s, i) ==> r == Some(CaptureAt(p, s, i))
  {
    match Search(p, s, 0)
    case None => None
    case Some(i) => Some(CaptureAt(p, s, i))
  }

  /** `get_youtube_id`: the standard pattern's capture if it matches anywhere,
      otherwise the shorts pattern's capture, otherwise `None`. */
  function GetYoutubeId(url: string): (r: Option<string>)
    ensures r.None? <==> NoMatch(Standard, url) && NoMatch(Shorts, url)
    ensures forall i: nat :: LeftmostAt(Standard, url, i) ==> r == Some(CaptureAt(Standard, url, i))
    ensures NoMatch(Standard, url) ==>
      forall i: nat :: LeftmostAt(Shorts, url, i) ==> r == Some(CaptureAt(Shorts, url, i))
  {
    match Find(Standard, url)
    case Some(id) => Some(id)
    case None => Find(Shorts, url)
  }

  /** A pattern that matches somewhere has a leftmost match. */
  lemma LeftmostExists(p: Pattern, s: string, i: nat)
    requires MatchesAt(p, s, i)
    ensures exists j: nat :: j <= i && LeftmostAt(p, s, j)
  {
    var r := Search(p, s, 0);
    assert r.Some? && r.value <= i;
    assert LeftmostAt(p, s, r.value);
  }

  /** Two maximal runs of non-stop characters from the same start end together. */
  lemma MaximalRunUnique(s: string, j: nat, stops: set<char>, e1: nat, e2: nat)
    requires j <= e1 <= |s| && j <= e2 <= |s|
    requires forall t :: j <= t < e1 ==> s[t] !in stops
    requires forall t :: j <= t < e2 ==> s[t] !in stops
    requires e1 == |s| || s[e1] in stops
    requires e2 == |s| || s[e2] in stops
    ensures e1 == e2
  {
  }

  /** Whatever `get_youtube_id` returns is a non-empty id without `?`; when the
      standard pattern matched, it holds no `&` either. */
  lemma ResolvedIdShape(url: string)
    ensures match GetYoutubeId(url)
      case None => true
      case Some(id) =>
        && |id| > 0
        && '?' !in id
        && (!NoMatch(Standard, url) ==> '&' !in id)
  {
    if !NoMatch(Standard, url) {
      var i: nat :| MatchesAt(Standard, url, i);
      LeftmostExists(Standard, url, i);
    } else if !NoMatch(Shorts, url) {
      var i: nat :| MatchesAt(Shorts, url, i);
      LeftmostExists(Shorts, url, i);
    }
  }

  /** The converse of `GetYoutubeId`'s contract for the standard pattern: a
      marker at `i` with no match before it, followed by a non-empty run `id`
      of characters other than `&` and `?` that ends the string or stops at
      `&` or `?`, is what `get_youtube_id` returns. */
  lemma StandardIdResolves(url: string, i: nat, k: nat, id: string)
    requires forall j: nat :: j < i ==> !MatchesAt(Standard, url, j)
    requires k < |Standard.markers| && OccursAt(url, i, Standard.markers[k])
    requires |id| > 0 && forall t :: 0 <= t < |id| ==> id[t] !in Standard.stops
    requires var j := i + |Standard.markers[k]|;
      && j + |id| <= |url|
      && url[j..j + |id|] == id
      && (j + |id| == |url| || url[j + |id|] in Standard.stops)
    ensures GetYoutubeId(url) == Some(id)
  {
    var j := i + |Standard.markers[k]|;
    assert url[j] == id[0];
    assert AltMatchesAt(Standard, url, i, k);
    assert LeftmostAt(Standard, url, i);
    var k' := FirstAlt(Standard, url, i, 0).value;
    OneStandardMarker(url, i, k, k');
    assert IdStart(Standard, url, i) == j;
    RunOfId(url, j, id, Standard.stops);
  }

  /** "v=" and "youtu.be/" differ in their first character, so at most one of
      them starts at any index. */
  lemma OneStandardMarker(url: string, i: nat, k: nat, k': nat)
    requires k < 2 && OccursAt(url, i, Standard.markers[k])
    requires k' < 2 && OccursAt(url, i, Standard.markers[k'])
    ensures k == k'
  {
    assert url[i] == url[i..i + |Standard.markers[k']|][0] == Standard.markers[k'][0];
    assert url[i] == url[i..i + |Standard.markers[k]|][0] == Standard.markers[k][0];
  }

  /** A run `id` of non-stop characters at `j` that ends the string or stops
      at a stop character is the maximal run from `j`. */
  lemma RunOfId(s: string, j: nat, id: string, stops: set<char>)
    requires j + |id| <= |s| && s[j..j + |id|] == id
    requires forall t :: 0 <= t < |id| ==> id[t] !in stops
    requires j + |id| == |s| || s[j + |id|] in stops
    ensures RunEnd(s, j, stops) == j + |id|
  {
    forall t | j <= t < j + |id|
      ensures s[t] !in stops
    {
      assert s[t] == id[t - j];
    }
    MaximalRunUnique(s, j, stops, RunEnd(s, j, stops), j + |id|);
  }

  /** The converse of `GetYoutubeId`'s contract for the shorts pattern, which is
      consulted only when the standard pattern matches nowhere. */
  lemma ShortsIdResolves(url: string, i: nat, id: string)
    requires NoMatch(Standard, url)
    requires forall j: nat :: j < i ==> !MatchesAt(Shorts, url, j)
    requires OccursAt(url, i, "shorts/")
    requires |id| > 0 && '?' !in id
    requires var j := i + 7;
      && j + |id| <= |url|
      && url[j..j + |id|] == id
      && (j + |id| == |url| || url[j + |id|] == '?')
    ensures GetYoutubeId(url) == Some(id)
  {
    var j := i + 7;
    assert url[j] == id[0];
    assert AltMatchesAt(Shorts, url, i, 0);
    assert LeftmostAt(Shorts, url, i);
    assert IdStart(Shorts, url, i) == j;
    RunOfId(url, j, id, Shorts.stops);
  }

  /** A stretch of `s` that holds no first character of any marker of `p`
      holds no match of `p`. */
  lemma NoMatchInStretch(p: Pattern, s: string, lo: nat, hi: nat)
    requires lo <= hi <= |s|
    requires forall k :: 0 <= k < |p.markers| ==> |p.markers[k]| > 0 && p.markers[k][0] !in s[lo..hi]
    ensures forall j: nat :: lo <= j < hi ==> !MatchesAt(p, s, j)
  {
    forall j: nat, k: nat | lo <= j < hi
      ensures !AltMatchesAt(p, s, j, k)
    {
      assert s[lo..hi][j - lo] == s[j];
    }
  }
}

=== FILE: workflow.dfy ===
/**
 One run of the application script (app.py lines 93-154), with Streamlit's
 session state made an explicit `Session` record, the user's actions and the
 services' answers made a `Request`, and everything the run shows made an
 `Outcome`.  The transcript services and the language model are outcome
 values; this module decides what the run does with them.
 */
module Workflow {
  import opened Wrappers
  import opened UrlResolver
  import opened Lexicographic
  import opened Languages
  import opened Transcript
  import opened Chat

  /** `st.session_state`.  `organizedText` is `None` after a failed
      summarisation, which stores Python's `None` there. */
  datatype Session = Session(extractedText: string, organizedText: Option<string>, chatHistory: seq<Message>)

  /** The state before the first run (app.py lines 15-18). */
  const Initial := Session("", Some(""), [])

  /** What `list_transcripts` did. */
  datatype Listing =
    | Listed(options: seq<TranscriptOption>)
    | ListingNoTranscriptFound
    | ListingTranscriptsDisabled
    | ListingFailed

  /** What `get_transcript` did. */
  datatype Fetch = Fetched(captions: seq<CaptionLine>) | FetchNoTranscriptFound | FetchFailed

  /** The user's input and the services' answers for one run.  `choice` is the
      index picked in the language selector (the first entry by default);
      `summary` is what `organize_text_with_gemini` returns, `None` on failure. */
  datatype Request = Request(
    url: string,
    hasApiKey: bool,
    listing: Listing,
    choice: nat,
    extractPressed: bool,
    fetch: Fetch,
    organizePressed: bool,
    summary: Option<string>,
    chatPressed: bool)

  /** The warnings and errors a run shows. */
  datatype Notice =
    | MissingApiKey
    | InvalidUrl
    | SubtitleError(disabled: bool)
    | UnexpectedError
    | NoSubtitles
    | NoTranscriptForLanguage
    | ExtractionError
    | SummaryError

  /** A notice that reports a failed extraction (every one but the missing-key
      warning and the summarisation error). */
  predicate ExtractionFailure(n: Notice) {
    !n.MissingApiKey? && !n.SummaryError?
  }

  datatype FetchCall = FetchCall(videoId: string, languageCode: string)

  /** The main area of the page. */
  datatype Display = ShowOrganized(text: string) | ShowExtracted(text: string) | ShowHint

  /** The sidebar's extraction part: the new `extracted_text`, the one notice
      a failure shows, the languages offered, and the service calls made. */
  datatype Extraction = Extraction(
    text: string,
    notice: Option<Notice>,
    choices: seq<string>,
    listedFor: Option<string>,
    fetched: Option<FetchCall>)

  /** What one run leaves behind and shows: the session, the missing-key
      warning, the extraction's notice, the summarisation error, the
      languages offered, the service calls, the action buttons, the chat
      panel and the main area. */
  datatype Outcome = Outcome(
    session: Session,
    keyWarning: bool,
    notice: Option<Notice>,
    summaryError: bool,
    choices: seq<string>,
    listedFor: Option<string>,
    fetched: Option<FetchCall>,
    offersActions: bool,
    chatOpened: bool,
    display: Display)

  /** The value `st.selectbox` returns: the picked entry, or the first. */
  function Selected(choices: seq<string>, choice: nat): (code: string)
    requires |choices| > 0
    ensures code in choices
    ensures choice < |choices| ==> code == choices[choice]
  {
    if choice < |choices| then choices[choice] else choices[0]
  }

  /** Truthiness of `organized_text`: neither `None` nor `""`. */
  predicate HasSummary(s: Session) {
    s.organizedText.Some? && s.organizedText.value != ""
  }

  /** Lines 149-154: the summary if there is one, else the transcript, else the hint. */
  function DisplayOf(s: Session): (d: Display)
    ensures d.ShowOrganized? <==> HasSummary(s)
    ensures d.ShowExtracted? <==> !HasSummary(s) && s.extractedText != ""
    ensures d.ShowOrganized? ==> d.text == s.organizedText.value
    ensures d.ShowExtracted? ==> d.text == s.extractedText
  {
    if HasSummary(s) then ShowOrganized(s.organizedText.value)
    else if s.extractedText != "" then ShowExtracted(s.extractedText)
    else ShowHint
  }

  /** Lines 99-140 for a non-empty URL: resolve the id, then list, select
      and fetch.  Every failure shows one notice and empties the transcript;
      without a click on "Extract Transcript" the previous transcript stays. */
  function Extract(previous: string, r: Request): (e: Extraction)
    ensures e.notice.Some? ==> ExtractionFailure(e.notice.value) && e.text == ""
    ensures e.text != previous ==> e.notice.Some? || (e.fetched.Some? && r.fetch.Fetched?)
    ensures GetYoutubeId(r.url).None? <==> e.notice == Some(InvalidUrl)
    ensures e.listedFor.Some? <==> GetYoutubeId(r.url).Some?
    ensures e.listedFor.Some? ==> e.listedFor == GetYoutubeId(r.url)
    ensures e.fetched.Some? ==>
      && e.listedFor == Some(e.fetched.value.videoId)
      && e.fetched.value.languageCode in e.choices
      && e.fetched.value.languageCode != ""
      && r.extractPressed
    ensures e.fetched.Some? && r.fetch.Fetched? ==> e.text == TranscriptText(r.fetch.captions)
    ensures e.listedFor.Some? && r.listing.Listed? ==> e.choices == LanguageOptions(r.listing.options)
    ensures |e.choices| > 0 <==> e.listedFor.Some? && r.listing.Listed? && |r.listing.options| > 0
    ensures e.listedFor.Some? && r.listing.Listed? && |r.listing.options| == 0 ==>
      e.notice == Some(NoSubtitles) && e.fetched.None?
    ensures e.listedFor.Some? && !r.listing.Listed? ==>
      e.notice == Some(ListingNotice(r.listing)) && e.text == ""
    ensures e.fetched.Some? <==>
      && GetYoutubeId(r.url).Some? && r.listing.Listed? && |r.listing.options| > 0
      && r.extractPressed && Selected(LanguageOptions(r.listing.options), r.choice) != ""
    ensures e.fetched.Some? ==>
      e.fetched.value == FetchCall(GetYoutubeId(r.url).value, Selected(e.choices, r.choice))
    ensures e.fetched.Some? && !r.fetch.Fetched? ==> e.notice.Some? && e.text == ""
    ensures e.fetched.Some? && r.fetch.FetchNoTranscriptFound? ==> e.notice == Some(NoTranscriptForLanguage)
    ensures e.fetched.Some? && r.fetch.FetchFailed? ==> e.notice == Some(ExtractionError)
    ensures e.notice.None? <==>
      && GetYoutubeId(r.url).Some? && r.listing.Listed? && |r.listing.options| > 0
      && (e.fetched.None? || r.fetch.Fetched?)
  {
    match GetYoutubeId(r.url)
    case None => Extraction("", Some(InvalidUrl), [], None, None)
    case Some(id) =>
      if r.listing.Listed? then AfterListing(previous, id, r.listing.options, r)
      else Extraction("", Some(ListingNotice(r.listing)), [], Some(id), None)
  }

  /** Lines 132-137: the error a failed listing shows.  Only a missing
      transcript and disabled subtitles get the subtitle error, flagged with
      which of the two it was; any other failure is unexpected. */
  function ListingNotice(l: Listing): (n: Notice)
    requires !l.Listed?
    ensures n.SubtitleError? <==> l.ListingNoTranscriptFound? || l.ListingTranscriptsDisabled?
    ensures n.SubtitleError? ==> (n.disabled <==> l.ListingTranscriptsDisabled?)
    ensures n.UnexpectedError? <==> l.ListingFailed?
  {
    match l
    case ListingNoTranscriptFound => SubtitleError(false)
    case ListingTranscriptsDisabled => SubtitleError(true)
    case ListingFailed => UnexpectedError
  }

  /** Lines 104-130, once the listing succeeded for video `id`. */
  function AfterListing(previous: string, id: string, options: seq<TranscriptOption>, r: Request): (e: Extraction)
    ensures e.notice.Some? ==>
      e.notice.value in {NoSubtitles, NoTranscriptForLanguage, ExtractionError} && e.text == ""
    ensures e.text != previous ==> e.notice.Some? || (e.fetched.Some? && r.fetch.Fetched?)
    ensures e.listedFor == Some(id)
    ensures e.fetched.Some? ==>
      && e.fetched.value.videoId == id
      && e.fetched.value.languageCode in e.choices
      && e.fetched.value.languageCode != ""
      && r.extractPressed
    ensures e.fetched.Some? && r.fetch.Fetched? ==> e.text == TranscriptText(r.fetch.captions)
    ensures e.choices == LanguageOptions(options)
    ensures |e.choices| == 0 <==> |options| == 0
    ensures |options| == 0 <==> e.notice == Some(NoSubtitles)
    ensures |options| == 0 ==> e.fetched.None?
    ensures e.fetched.Some? <==>
      |options| > 0 && r.extractPressed && Selected(LanguageOptions(options), r.choice) != ""
    ensures e.fetched.Some? ==> e.fetched.value == FetchCall(id, Selected(e.choices, r.choice))
    ensures e.fetched.Some? && !r.fetch.Fetched? ==> e.notice.Some? && e.text == ""
    ensures e.fetched.Some? && r.fetch.FetchNoTranscriptFound? ==> e.notice == Some(NoTranscriptForLanguage)
    ensures e.fetched.Some? && r.fetch.FetchFailed? ==> e.notice == Some(ExtractionError)
    ensures e.notice.None? <==> |options| > 0 && (e.fetched.None? || r.fetch.Fetched?)
  {
    TableKeys(options);
    if |BuildTable(options).keys| == 0 then Extraction("", Some(NoSubtitles), [], Some(id), None)
    else
      var choices := LanguageOptions(options);
      var code := Selected(choices, r.choice);
      if code != "" && r.extractPressed then
        var call := Some(FetchCall(id, code));
        match r.fetch
        case Fetched(captions) => Extraction(TranscriptText(captions), None, choices, Some(id), call)
        case FetchNoTranscriptFound => Extraction("", Some(NoTranscriptForLanguage), choices, Some(id), call)
        case FetchFailed => Extraction("", Some(ExtractionError), choices, Some(id), call)
      else Extraction(previous, None, choices, Some(id), None)
  }

  /** One run of the script. */
  function Run(s: Session, r: Request): (o: Outcome)
    ensures r.url == "" ==>
      && o.session == s && !o.keyWarning && o.notice.None? && !o.summaryError
      && o.fetched.None? && o.listedFor.None? && !o.offersActions
    ensures o.notice.Some? ==> ExtractionFailure(o.notice.value) && o.session.extractedText == ""
    ensures o.offersActions <==> r.url != "" && o.session.extractedText != ""
    ensures o.chatOpened <==> o.offersActions && r.chatPressed
    ensures r.url != "" ==>
      var e := Extract(s.extractedText, r);
      && o.session.extractedText == e.text && o.notice == e.notice && o.choices == e.choices
      && o.listedFor == e.listedFor && o.fetched == e.fetched
    ensures o.session.chatHistory == s.chatHistory
    ensures o.session.organizedText != s.organizedText ==>
      o.offersActions && r.organizePressed && o.session.organizedText == r.summary
    ensures o.offersActions && r.organizePressed ==> o.session.organizedText == r.summary
    ensures o.keyWarning <==> r.url != "" && !r.hasApiKey
    ensures o.summaryError <==> o.offersActions && r.organizePressed && r.summary.None?
    ensures o.display.ShowOrganized? <==> HasSummary(o.session)
    ensures o.display.ShowOrganized? ==> o.display.text == o.session.organizedText.value
    ensures o.display.ShowExtracted? ==> o.display.text == o.session.extractedText && o.session.extractedText != ""
    ensures o.display.ShowHint? <==> !HasSummary(o.session) && o.session.extractedText == ""
  {
    if r.url == "" then
      Outcome(s, false, None, false, [], None, None, false, false, DisplayOf(s))
    else
      var e := Extract(s.extractedText, r);
      var extracted := s.(extractedText := e.text);
      var offers := e.text != "";
      var organize := offers && r.organizePressed;
      var after := if organize then extracted.(organizedText := r.summary) else extracted;
      Outcome(after, !r.hasApiKey, e.notice, organize && r.summary.None?, e.choices, e.listedFor, e.fetched,
              offers, offers && r.chatPressed, DisplayOf(after))
  }

  /** Every failure on the way to a transcript (an unresolvable URL, a failed
      or empty listing, a failed fetch) shows its notice and leaves no
      transcript, so neither action is offered. */
  lemma FailureEmptiesTranscript(s: Session, r: Request)
    requires r.url != ""
    requires || GetYoutubeId(r.url).None?
             || !r.listing.Listed?
             || |r.listing.options| == 0
             || (&& r.extractPressed
                 && Selected(LanguageOptions(r.listing.options), r.choice) != ""
                 && !r.fetch.Fetched?)
    ensures var o := Run(s, r);
      o.notice.Some? && o.session.extractedText == "" && !o.offersActions && !o.chatOpened
  {
    if GetYoutubeId(r.url).Some? && r.listing.Listed? && |r.listing.options| > 0 {
      TableKeys(r.listing.options);
    }
  }

  /** A missing API key adds its warning and changes nothing else. */
  lemma MissingKeyOnlyWarns(s: Session, r: Request)
    requires r.url != ""
    ensures var withKey := Run(s, r.(hasApiKey := true));
      Run(s, r.(hasApiKey := false)) == withKey.(keyWarning := true)
  {
    ExtractIgnoresKey(s.extractedText, r, false);
    ExtractIgnoresKey(s.extractedText, r, true);
  }

  /** The extraction does not look at the API key. */
  lemma ExtractIgnoresKey(previous: string, r: Request, hasApiKey: bool)
    ensures Extract(previous, r.(hasApiKey := hasApiKey)) == Extract(previous, r)
  {
  }

  /** An empty listing shows the no-subtitles warning, offers no language,
      fetches nothing and empties the transcript. */
  lemma EmptyListingFetchesNothing(s: Session, r: Request)
    requires r.url != "" && r.listing == Listed([])
    ensures var o := Run(s, r);
      && o.choices == [] && o.fetched.None? && o.session.extractedText == ""
      && (GetYoutubeId(r.url).Some? ==> o.notice == Some(NoSubtitles))
  {
  }

  /** The languages a successful listing offers are its codes, each once, in
      ascending order, whatever order the service returned them in. */
  lemma OfferedLanguages(s: Session, r: Request)
    requires r.url != "" && GetYoutubeId(r.url).Some?
    requires r.listing.Listed? && |r.listing.options| > 0
    ensures var o := Run(s, r);
      && StrictlySorted(o.choices)
      && (forall k :: k in o.choices <==> k in Codes(r.listing.options))
  {
    TableKeys(r.listing.options);
  }

  /** A language advertised but not retrievable reports an error for that
      language and empties the transcript; the same languages stay on offer,
      so another one can be picked on the next run without a new URL. */
  lemma FetchMissKeepsLanguages(s: Session, r: Request)
    requires r.url != "" && GetYoutubeId(r.url).Some?
    requires r.listing.Listed? && |r.listing.options| > 0
    requires r.extractPressed && r.fetch == FetchNoTranscriptFound
    requires Selected(LanguageOptions(r.listing.options), r.choice) != ""
    ensures var o := Run(s, r);
      && o.notice == Some(NoTranscriptForLanguage)
      && o.session.extractedText == ""
      && o.choices == LanguageOptions(r.listing.options)
      && o.fetched == Some(FetchCall(GetYoutubeId(r.url).value, Selected(o.choices, r.choice)))
  {
    TableKeys(r.listing.options);
  }

  /** A successful fetch makes the newline-joined caption texts the transcript
      and shows it, unless a summary is already on display. */
  lemma FetchedTranscriptShown(s: Session, r: Request)
    requires r.url != "" && GetYoutubeId(r.url).Some?
    requires r.listing.Listed? && |r.listing.options| > 0
    requires r.extractPressed && r.fetch.Fetched?
    requires Selected(LanguageOptions(r.listing.options), r.choice) != ""
    requires !r.organizePressed
    ensures var o := Run(s, r);
      && o.session.extractedText == TranscriptText(r.fetch.captions)
      && o.session.organizedText == s.organizedText
      && o.fetched == Some(FetchCall(GetYoutubeId(r.url).value, Selected(o.choices, r.choice)))
      && (!HasSummary(s) && o.session.extractedText != "" ==> o.display == ShowExtracted(o.session.extractedText))
  {
    TableKeys(r.listing.options);
  }

  /** Before anything is entered the page shows the hint and the session stays
      as initialised. */
  lemma InitialShowsHint(r: Request)
    requires r.url == ""
    ensures var o := Run(Initial, r);
      o.session == Initial && o.display == ShowHint && !o.offersActions
  {
  }

  /** `organized_text` is never cleared by extraction: a summary from an
      earlier video stays on display after a later extraction fails. */
  lemma SummarySurvivesFailedExtraction(s: Session, r: Request)
    requires HasSummary(s)
    requires r.url != "" && GetYoutubeId(r.url).None?
    ensures var o := Run(s, r);
      && o.notice == Some(InvalidUrl)
      && o.session.extractedText == ""
      && o.display == ShowOrganized(s.organizedText.value)
  {
  }
}

=== FILE: wrappers.dfy ===
/** The optional value that stands in for Python's `None`. */
module Wrappers {

  datatype Option<+T> = None | Some(value: T)
}
